=== FILE: README.md ===
# TaskManager-CLI in Dafny

A model of the command core of the TaskManager-CLI task tracker (`Program.cs`).
The C# program keeps a list of tasks in memory and reads commands one line at a
time. The commands are `add`, `list`, `delete`, `update`, `mark-done`,
`mark-in-progress`, `help` and `exit`. The model covers:

- how a line is split into a lower-cased command word and an optional argument;
- the `add` branch, which gives the new task the id `max + 1` (or `1` for an
  empty list);
- `ChangeTask`, which carries out `delete`, `update` and the two status changes,
  including its three early exits: no argument, invalid id, id not found;
- the `list` filter: a status bucket, or a case-insensitive keyword;
- the 27-character description column of the table.

Every command is a pure function. It takes the current task list, the argument
(`None` where C# has `null`) and a clock reading `now: nat`. It returns the new
list and the reply the program prints. `Cli.Step` is one pass of the read loop.

Modules, in dependency order:

- `Options`: `Option<T>`.
- `Strings`: the .NET string operations the program uses:
  - `IsNullOrWhiteSpace`, with the exact `char.IsWhiteSpace` set;
  - ASCII `ToLower`;
  - `Split(' ', 2)`, `Split(' ')` and `string.Join`;
  - the ordinal `Contains`.
- `Integers`: the 32-bit `int`; the unchecked `+ 1`; `int.TryParse`; decimal
  printing.
- `Sequences`: order-preserving selection (subsequence).
- `TaskStore`: `Task`, `Add`, `ChangeTask` and the properties that relate them.
- `Listing`: the `list` filter, truncation and table rows.
- `Cli`: line splitting and dispatch.
- `Scenarios`: a whole session checked line by line.

Behaviour of the code worth knowing, each proved as a lemma:

- **Id reuse.** Ids are `max + 1`. Deleting the task with the largest id and
  adding again hands out that id a second time
  (`TaskStore.AddAfterDeleteReusesId`).
- **Splitting.** The line and the argument are split on the single character
  `' '`, not on runs of white space. Two spaces before an id leave an empty
  first token, and the command fails with "invalid id"
  (`Cli.DoubledSpaceBeforeIdIsInvalid`).
- **Stored descriptions.** Descriptions are stored exactly as typed, untrimmed
  (`Cli.AddLineKeepsText`).
- **Overflow.** `max + 1` is C#'s unchecked addition. When some id equals
  `int.MaxValue`, the new id wraps to `int.MinValue` and can duplicate an
  existing one (`TaskStore.AddAtIdCeilingDuplicatesId`). The id properties of
  `add` are stated for lists below that ceiling (`BelowIdCeiling`).
- **Lengths.** The 27-character column counts UTF-16 code units, as .NET's
  `Length` and `Substring` do, so a character outside the Basic Multilingual
  Plane counts twice (`Listing.FourteenEmojiAreCut`).

## Model

| member | source | states |
|---|---|---|
| Cli.SplitCommand | Program.cs:29-31 | The command word holds no space, and the command name is the word lower-cased. There is no argument exactly when the line has no space. Otherwise word + " " + argument is the line itself. |
| Cli.ActionFor | Program.cs:61-75 | Exactly `delete`, `update`, `mark-done` and `mark-in-progress` go to `ChangeTask`, with the actions Delete, Update, Completed and In Progress. No command sets Pending. |
| Cli.Step | Program.cs:26-87 | A blank line is skipped. `help` answers help and `exit` exits, exactly for those words. Only `add`, `delete`, `update`, `mark-done` and `mark-in-progress` can reply Done, and only a Done reply can change the list; a failed one leaves it unchanged. Added, Deleted and Updated replies come only from `add`, `delete` and `update`. Only `mark-done` (Completed) and `mark-in-progress` (In Progress) mark a status. A line lists exactly on `list` and is unrecognized exactly when its lower-cased word is not one of the eight commands. |
| Cli.Other | Program.cs:35-86 | Of the other branches of the switch, only `add` can reply Done, with Added or "missing description", and only that can change the list. `list`, `help` and `exit` list, show help and exit exactly for their own words; any other word is unrecognized. |
| Cli.StepRoutes | Program.cs:29-75 | A non-blank line whose lower-cased word is a `ChangeTask` command, `add` or `list` runs exactly that operation on the argument as split off, which is `None` when the line has no space. |
| Cli.StepPreservesWellFormed | Program.cs:23-87 | Each line keeps the ids unique and every description non-blank, as long as no id has reached `int.MaxValue`. |
| Cli.LineOf | Program.cs:27-31 | A word with a non-blank character, one space and any argument is not skipped, and splits back into exactly that word and that argument. |
| Cli.Line | Program.cs:29-31 | A word typed alone or followed by one space and an argument is a non-blank line that splits back into that word and that argument. |
| Cli.StepIgnoresCommandCase | Program.cs:30-33 | Two words that differ only in letter case have the same effect, typed alone (`EXIT` and `exit`) or before the same argument. |
| Cli.BareWordRoutes | Program.cs:35-59 | A command word typed alone: `list` shows every task, `add` fails with "missing description", and `delete`, `update`, `mark-done` and `mark-in-progress` fail with "missing id", all without changing the list. |
| Cli.ChangeLineRoutes | Program.cs:61-75 | A line whose word names a `ChangeTask` command runs that action with the unmodified rest of the line as its argument. |
| Cli.ListLineRoutes | Program.cs:57-59 | `list <filter>`, in any letter case, lists with that filter and leaves the list unchanged. |
| Cli.AddLineKeepsText | Program.cs:35-54 | `add <text>` appends one Pending task with id `max + 1`, the text exactly as typed, and both timestamps equal to now. |
| Cli.DoubledSpaceBeforeIdIsInvalid | Program.cs:159-163 | With two spaces between a `ChangeTask` command and its argument, the command fails with "invalid id" and changes nothing. |
| TaskStore.MaxId | Program.cs:42 | The maximum bounds every id and is itself an id of the list. |
| TaskStore.Status.Text | Program.cs:47-102 | The stored status texts are "Pending", "In Progress" (with a space) and "Completed". |
| TaskStore.NextId | Program.cs:42 | The next id is 1 for an empty list. Below the ceiling it exceeds every id and is one more than an existing id. Otherwise it wraps to `int.MinValue`. |
| TaskStore.Add | Program.cs:36-54 | A missing or blank argument fails and changes nothing. Otherwise exactly one task is appended after the unchanged old list: the argument as typed, Pending, created and updated now, reported by its id. The first id is 1, and below the ceiling the new id exceeds all ids. Unique, non-blank lists stay so. |
| TaskStore.FindIndex | Program.cs:165 | The position of the first task with the id, and none exactly when no task has it. |
| TaskStore.IdToken | Program.cs:159 | The id token is the prefix of the argument up to its first space, and holds no space. |
| TaskStore.Locate | Program.cs:153-170 | The early exits in order: a missing or blank argument means "missing id"; an unparsable first token means "invalid id"; a parsed id that no task has means "not found". Otherwise it finds the first task with that id. |
| TaskStore.RemoveAt | Program.cs:174 | Removing one position shortens the list by one, keeps the order, and takes away exactly that one occurrence: the multiset, and the positions before and after. |
| TaskStore.ChangeTask | Program.cs:151-199 | It never replies Added; Deleted, Updated and Marked come only from their own action. Every error leaves the list unchanged. `delete` removes exactly the located task. `update` fails on a blank new description; otherwise only the located task changes, and only in its description (the text after the first space) and its update time. A status change touches only that task's status and update time. |
| TaskStore.NewDescription | Program.cs:180 | Joining the space-separated pieces after the first with spaces gives exactly the text after the first space. |
| TaskStore.Reword | Program.cs:187-188 | Only the task at the position changes, and only its description and update time. |
| TaskStore.Restatus | Program.cs:194-195 | Only the task at the position changes, and only its status and update time. |
| TaskStore.RemoveAtDropsExactlyThatId | Program.cs:165-174 | With unique ids, a delete removes exactly the tasks with the deleted id and keeps every other task. |
| TaskStore.RemoveAtKeepsWellFormed | Program.cs:174 | Removing a task keeps the ids unique and the descriptions non-blank. |
| TaskStore.ChangeTaskPreservesWellFormed | Program.cs:151-199 | Every `ChangeTask` action keeps the ids unique and the descriptions non-blank. |
| TaskStore.RewordKeepsWellFormed | Program.cs:180-188 | Giving one task a new non-blank description keeps the ids unique and the descriptions non-blank. |
| TaskStore.RestatusKeepsWellFormed | Program.cs:194-195 | Changing one task's status keeps the ids unique and the descriptions non-blank. |
| TaskStore.LeadingSpaceIsInvalidId | Program.cs:159-163 | An argument that starts with a space has an empty first token, so every action fails with "invalid id" and changes nothing. |
| TaskStore.DeleteUndoesAdd | Program.cs:42-176 | Deleting a just-added task through the id `add` printed restores the list it was added to, even when the list already held duplicate ids. |
| TaskStore.PrintedIdIsOneToken | Program.cs:159 | The printed form of any id is one non-blank token that `int.TryParse` reads back as that id. |
| TaskStore.AddAfterDeleteReusesId | Program.cs:42 | Add, delete that task, add again: the second add gets the same id as the first. |
| TaskStore.AddAtIdCeilingDuplicatesId | Program.cs:42 | Adding to a list holding both `int.MinValue` and `int.MaxValue` yields the id `int.MinValue` a second time. |
| Listing.ParseFilter | Program.cs:95-104 | No filter or a blank one means everything. Otherwise the lower-cased filter selects Pending, In Progress or Completed exactly for "todo", "in-progress" and "done". Any other filter is a non-blank lower-cased keyword. |
| Listing.Matches | Program.cs:100-103 | The `Where` conditions: the three bucket filters compare the stored status texts, and a keyword must occur in the lower-cased description. |
| Listing.Select | Program.cs:98-104 | The shown tasks are a subsequence of the list. Each one matches the filter, and each matching task is kept as often as it occurs. |
| Listing.FilterSemantics | Program.cs:93-105 | A task is shown exactly when it is in the list and one of these holds: the filter is missing or blank; the filter is a bucket name and the task has that status; or the filter is another word and occurs in the lower-cased description. |
| Listing.StatusTextInjective | Program.cs:100-102 | Distinct statuses have distinct stored texts, so comparing texts compares statuses. |
| Listing.SelectAllIsIdentity | Program.cs:93-95 | Without a filter, every task is shown, in list order. |
| Listing.Truncate | Program.cs:119-121 | The column is at most 27 UTF-16 units long. Up to 27 units it is the description unchanged. A longer description becomes a prefix of it followed by "...": the prefix takes 24 units, or 23 when the next character is a surrogate pair that does not fit. |
| Listing.TruncateInBmp | Program.cs:119-121 | For text inside the Basic Multilingual Plane, a description of up to 27 characters is kept and a longer one becomes its first 24 characters followed by "...". |
| Listing.FourteenEmojiAreCut | Program.cs:119-121 | Fourteen emoji are 28 UTF-16 units, so they are cut to twelve emoji followed by "...". |
| Listing.RenderRow | Program.cs:119-145 | A row carries the task's id and timestamps, the stored text of exactly the task's status, and the truncated description, which is at most 27 units long. |
| Listing.ListTasks | Program.cs:91-111 | "No tasks" is shown exactly when the filter selects nothing. Otherwise there is one row per selected task, in order. A blank filter on a non-empty list shows all tasks. |
| Strings.LowerChar | Program.cs:30 | A character lower-cases to a non-upper-case letter: A-Z move by 32 and every other character is kept. |
| Strings.ToLower | Program.cs:30 | Lower-casing keeps the length, leaves no upper-case letter, keeps every other character and moves each upper-case letter by 32. |
| Strings.IndexOf | Program.cs:29 | The first position of the character, and none exactly when it does not occur. |
| Strings.SplitFirst | Program.cs:29 | `Split(' ', 2)`: the first piece has no separator. There is a second piece exactly when the separator occurs, and first + separator + second is the input. |
| Strings.SplitAll | Program.cs:159 | `Split(' ')` yields at least one piece, and no piece holds the separator. |
| Strings.JoinSplitAll | Program.cs:180 | Joining the pieces of a split with the same separator gives back the original text. |
| Strings.SplitAllAgreesWithSplitFirst | Program.cs:159-180 | The first piece of `Split(' ')` is the text before the first space. Joining the remaining pieces gives exactly the text after that space. |
| Strings.TextAfter | Program.cs:180 | The text after the first separator, or empty when there is none. |
| Strings.Join | Program.cs:180 | `string.Join`: the pieces in order with the separator between consecutive ones. |
| Strings.Utf16Length | Program.cs:119 | `Length`: one unit per character of the Basic Multilingual Plane, two per character outside it. |
| Strings.Utf16LengthBounds | Program.cs:119 | `Length` counts each character as one or two units, and exactly one throughout the Basic Multilingual Plane. |
| Strings.PrefixWithin | Program.cs:120 | The longest prefix of the text that fits in the given number of UTF-16 units: it fits, and the next character would not. |
| Strings.SplitFirstOfJoined | Program.cs:29 | A word without a space, a space and any rest split back into that word and that rest. |
| Strings.IsWhiteSpace | Program.cs:27 | `char.IsWhiteSpace`: space, U+0009 to U+000D, U+0085, U+00A0, U+1680, U+2000 to U+200A, U+2028, U+2029, U+202F, U+205F and U+3000. |
| Strings.Blank | Program.cs:36 | Empty, or white space only. |
| Strings.MissingOrBlank | Program.cs:153 | `string.IsNullOrWhiteSpace`: no argument, or a blank one. |
| Strings.Contains | Program.cs:103 | The ordinal `Contains` is true exactly when the keyword occurs at some position of the description. |
| Strings.OccursLater | Program.cs:103 | When the keyword is not at the front, it occurs in the text exactly when it occurs after the first character. |
| Integers.WrapIncrement | Program.cs:42 | `x + 1` agrees with the exact successor modulo 2^32. It is larger than `x` except at `int.MaxValue`, where it wraps below. |
| Integers.NatToDigitsRoundTrip | Program.cs:54 | The printed digits of a number are non-empty, all decimal, have that number as their value, and start with '0' only for zero. |
| Integers.FormatInt | Program.cs:54 | An id prints as a '-' exactly for negative values, followed by decimal digits whose value is the id's magnitude, with no leading zero: the digits start with '0' only when they are exactly "0". |
| Integers.ParseInt32 | Program.cs:159 | Digits, `+`digits and `-`digits are accepted exactly when their value fits in 32 bits, and then give that value (negated after `-`). Nothing else is accepted: an accepted token is an optional sign followed by digits. |
| Integers.PaddedAndSignedIds | Program.cs:159 | "007" reads as 7 and "+5" as 5. |
| Integers.ParseFormatRoundTrip | Program.cs:159 | Parsing the printed form of any 32-bit `int` gives that `int`. |
| Sequences.RemoveAtIsSubsequence | Program.cs:174 | Removing one element keeps the order of the others. |
| Scenarios.Walkthrough | Program.cs:23-87 | Starting from an empty list: "add Buy milk" replies id 1 and "add Buy bread" replies id 2. "mark-done 1" completes task 1. "list done" shows only task 1 and changes nothing. "delete 2" removes task 2. "update 1 Buy oat milk" rewords task 1 and updates its time. |

## Left out

- `LoadTasks` and `SaveTasks` (Program.cs:274-296): reading and writing `tasks.json` through `System.Text.Json`. The list is the model's state, and serialization is file I/O.
- `DateTime.Now`: it becomes a clock parameter `now: nat`. In `add` the two readings for the creation and update times become one value. The dd-MM-yyyy date format of the table is left out.
- Console output: the colours and padding of the table, the help text (`ShowHelp`) and the message helpers. Replies and rows stand for what is printed, and `help` is only an outcome.
- The read loop itself, and `Console.ReadLine` returning null at end of input: `Cli.Step` is one iteration.
- Strings.ToLower, Strings.LowerChar: `ToLower` is culture-sensitive in .NET, and the model lower-cases ASCII letters only. For example, `list äpfel` does not find a task "Äpfel" that the program shows.
- Listing.Truncate: when a surrogate pair straddles the 24th unit, C#'s `Substring(0, 24)` keeps its high surrogate alone before "...". A Dafny string cannot hold a lone surrogate, so the model keeps 23 units. Descriptions holding lone surrogates are not modelled either.
- Integers.ParseInt32: does not model the leading or trailing white space, the trailing U+0000 characters (`"5\0"` reads as 5) or the culture-specific signs that `int.TryParse` also accepts. The tokens it sees never hold a space, but they may hold other white space.
- Status texts other than the three the program writes: a hand-edited `tasks.json` could hold one, but the model's Status has exactly three values.
- A task whose description is null: this can only come from a hand-edited file.
- `tasks.Remove(tarea)` removes by reference. Here that is the first task with the id, so the model removes that position.

=== FILE: cli.dfy ===
/**
  One pass of the read-eval loop in `Program.Main`: split the input line into a
  command word and an optional argument, and dispatch on the lower-cased word.
  The loop itself, the console and the file writes after each change are outside
  the model; `Step` is what happens to the task list for one line.
 */
module Cli {
  import opened Options
  import opened Strings
  import opened Integers
  import opened TaskStore
  import opened Listing

  /** An input line split by `input.Split(' ', 2)`: the word as typed, the command
      name (the word lower-cased), and the argument (`None` when there is no space). */
  datatype CommandLine = CommandLine(word: string, name: string, arg: Option<string>)

  /** Split at the first ' ' only: the argument is everything after it, unchanged,
      so further spaces (even a second one right after the first) stay in it. */
  function SplitCommand(input: string): (c: CommandLine)
    ensures ' ' !in c.word
    ensures c.name == ToLower(c.word)
    ensures c.arg.None? <==> ' ' !in input
    ensures c.arg.None? ==> c.word == input
    ensures c.arg.Some? ==> c.word + " " + c.arg.value == input
  {
    var (word, arg) := SplitFirst(input, ' ');
    CommandLine(word, ToLower(word), arg)
  }

  /** What one input line produces. */
  datatype Outcome =
    | Skipped              // a blank line: the loop just prompts again
    | Done(reply: Reply)   // add, delete, update, mark-done, mark-in-progress
    | Listed(view: View)   // list
    | HelpShown            // help
    | Exited               // exit: the loop returns
    | Unrecognized         // any other word

  /** The command names `Main` recognises. */
  const Commands: set<string> := {"add", "list", "delete", "update", "mark-done", "mark-in-progress", "help", "exit"}

  /** The `ChangeTask` action behind a command name, if it has one. */
  function ActionFor(name: string): (a: Option<Action>)
    ensures a.Some? <==> name in {"delete", "update", "mark-done", "mark-in-progress"}
    ensures a == Some(Delete) <==> name == "delete"
    ensures a == Some(Update) <==> name == "update"
    ensures a == Some(SetStatus(Completed)) <==> name == "mark-done"
    ensures a == Some(SetStatus(InProgress)) <==> name == "mark-in-progress"
    ensures a != Some(SetStatus(Pending))
  {
    if name == "delete" then Some(Delete)
    else if name == "update" then Some(Update)
    else if name == "mark-done" then Some(SetStatus(Completed))
    else if name == "mark-in-progress" then Some(SetStatus(InProgress))
    else None
  }

  /** One line of input against the task list, with `now` as the clock reading. */
  function Step(tasks: seq<Task>, input: string, now: nat): (r: (seq<Task>, Outcome))
    ensures Blank(input) <==> r.1 == Skipped
    ensures !r.1.Done? ==> r.0 == tasks
    ensures r.1.Done? && r.1.reply.Failed? ==> r.0 == tasks
    ensures !Blank(input) ==> (r.1 == Unrecognized <==> SplitCommand(input).name !in Commands)
    ensures !Blank(input) ==> (r.1 == Exited <==> SplitCommand(input).name == "exit")
    ensures !Blank(input) ==> (r.1.Listed? <==> SplitCommand(input).name == "list")
    ensures !Blank(input) ==> (r.1 == HelpShown <==> SplitCommand(input).name == "help")
    ensures r.1.Done? ==>
      SplitCommand(input).name in {"add", "delete", "update", "mark-done", "mark-in-progress"}
    ensures r.1.Done? && r.1.reply.Added? ==> SplitCommand(input).name == "add"
    ensures r.1.Done? && r.1.reply.Deleted? ==> SplitCommand(input).name == "delete"
    ensures r.1.Done? && r.1.reply.Updated? ==> SplitCommand(input).name == "update"
    ensures r.1.Done? && r.1.reply.Marked? ==>
      && SplitCommand(input).name in {"mark-done", "mark-in-progress"}
      && r.1.reply.status != Pending
      && (r.1.reply.status == Completed <==> SplitCommand(input).name == "mark-done")
  {
    if Blank(input) then (tasks, Skipped)
    else
      var c := SplitCommand(input);
      match ActionFor(c.name)
      case Some(action) =>
        var change := ChangeTask(tasks, action, c.arg, now);
        (change.tasks, Done(change.reply))
      case None => Other(tasks, c, now)
  }

  /** The commands that do not go through `ChangeTask`: `add`, `list`, `help`,
      `exit`, and every unknown word. */
  function Other(tasks: seq<Task>, c: CommandLine, now: nat): (r: (seq<Task>, Outcome))
    ensures !r.1.Done? ==> r.0 == tasks
    ensures r.1.Done? ==> c.name == "add" && (r.1.reply.Added? || r.1.reply == Failed(MissingDescription))
    ensures r.1.Done? && r.1.reply.Failed? ==> r.0 == tasks
    ensures c.name == "add" ==> r.1.Done?
    ensures r.1 != Skipped
    ensures r.1 == Unrecognized <==> c.name !in {"add", "list", "help", "exit"}
    ensures r.1 == Exited <==> c.name == "exit"
    ensures r.1 == HelpShown <==> c.name == "help"
    ensures r.1.Listed? <==> c.name == "list"
    ensures c.name == "add" ==>
      var change := Add(tasks, c.arg, now);
      r == (change.tasks, Done(change.reply))
    ensures c.name == "list" ==> r == (tasks, Listed(ListTasks(tasks, c.arg)))
  {
    if c.name == "add" then
      var change := Add(tasks, c.arg, now);
      (change.tasks, Done(change.reply))
    else if c.name == "list" then
      (tasks, Listed(ListTasks(tasks, c.arg)))
    else if c.name == "help" then
      (tasks, HelpShown)
    else if c.name == "exit" then
      (tasks, Exited)
    else
      (tasks, Unrecognized)
  }

  /** Every line keeps the ids unique and the descriptions non-blank, as long as no
      id has reached the top of the `int` range. */
  lemma StepPreservesWellFormed(tasks: seq<Task>, input: string, now: nat)
    requires WellFormed(tasks) && BelowIdCeiling(tasks)
    ensures WellFormed(Step(tasks, input, now).0)
  {
    if !Blank(input) {
      var c := SplitCommand(input);
      match ActionFor(c.name)
      case Some(action) => ChangeTaskPreservesWellFormed(tasks, action, c.arg, now);
      case None =>
    }
  }

  /** A line made of a word with some non-blank character, one space and an
      argument is not skipped, and reaches the command named by the word with
      exactly that argument. */
  lemma LineOf(word: string, arg: string)
    requires ' ' !in word && !Blank(word)
    ensures !Blank(word + " " + arg)
    ensures SplitCommand(word + " " + arg) == CommandLine(word, ToLower(word), Some(arg))
  {
    SplitFirstOfJoined(word, ' ', arg);
    var i :| 0 <= i < |word| && !IsWhiteSpace(word[i]);
    assert (word + " " + arg)[i] == word[i];
  }

  /** A non-blank line reaches the operation its lower-cased word names, with the
      argument as split off, or `None` when the line has no space. */
  lemma StepRoutes(tasks: seq<Task>, input: string, now: nat)
    requires !Blank(input)
    ensures var c := SplitCommand(input);
      && (ActionFor(c.name).Some? ==>
            var change := ChangeTask(tasks, ActionFor(c.name).value, c.arg, now);
            Step(tasks, input, now) == (change.tasks, Done(change.reply)))
      && (c.name == "add" ==>
            var change := Add(tasks, c.arg, now);
            Step(tasks, input, now) == (change.tasks, Done(change.reply)))
      && (c.name == "list" ==> Step(tasks, input, now) == (tasks, Listed(ListTasks(tasks, c.arg))))
  {
  }

  /** The line typed as a word and an optional argument: the word alone, or the
      word, one space and the argument. */
  function Line(word: string, arg: Option<string>): (line: string)
    requires ' ' !in word && !Blank(word)
    ensures !Blank(line)
    ensures SplitCommand(line) == CommandLine(word, ToLower(word), arg)
  {
    match arg
    case None => word
    case Some(a) =>
      LineOf(word, a);
      word + " " + a
  }

  /** The command word is matched without regard to letter case, both on its own
      (`EXIT` and `exit`) and before an argument. */
  lemma StepIgnoresCommandCase(tasks: seq<Task>, w1: string, w2: string, arg: Option<string>, now: nat)
    requires ' ' !in w1 && ' ' !in w2 && ToLower(w1) == ToLower(w2)
    requires !Blank(w1) && !Blank(w2)
    ensures Step(tasks, Line(w1, arg), now) == Step(tasks, Line(w2, arg), now)
  {
  }

  /** A command word typed on its own: `list` shows every task, `add` fails for
      want of a description, and the `ChangeTask` commands fail for want of an id;
      none of them changes the list. */
  lemma BareWordRoutes(tasks: seq<Task>, word: string, now: nat)
    requires ' ' !in word && !Blank(word)
    ensures ToLower(word) == "list" ==> Step(tasks, word, now) == (tasks, Listed(ListTasks(tasks, None)))
    ensures ToLower(word) == "add" ==> Step(tasks, word, now) == (tasks, Done(Failed(MissingDescription)))
    ensures ActionFor(ToLower(word)).Some? ==> Step(tasks, word, now) == (tasks, Done(Failed(MissingId)))
  {
    assert Line(word, None) == word;
  }

  /** A line whose word names a `ChangeTask` action runs that action on the
      argument. */
  lemma ChangeLineRoutes(tasks: seq<Task>, word: string, arg: string, now: nat)
    requires ' ' !in word && ActionFor(ToLower(word)).Some?
    ensures var c := ChangeTask(tasks, ActionFor(ToLower(word)).value, Some(arg), now);
      Step(tasks, word + " " + arg, now) == (c.tasks, Done(c.reply))
  {
    assert ToLower(word) != "";
    assert !Blank(word) by {
      assert !IsWhiteSpace(ToLower(word)[0]);
    }
    LineOf(word, arg);
  }

  /** A line whose word is `list` in any letter case lists with the argument as
      the filter, and changes nothing. */
  lemma ListLineRoutes(tasks: seq<Task>, word: string, arg: string, now: nat)
    requires ' ' !in word && ToLower(word) == "list"
    ensures Step(tasks, word + " " + arg, now) == (tasks, Listed(ListTasks(tasks, Some(arg))))
  {
    assert !Blank(word) by {
      assert !IsWhiteSpace(ToLower(word)[0]);
    }
    LineOf(word, arg);
  }

  /** `add <text>` appends one Pending task whose description is the text exactly
      as typed, leading spaces included, under the id `max + 1`. */
  lemma AddLineKeepsText(tasks: seq<Task>, text: string, now: nat)
    requires !Blank(text)
    ensures Step(tasks, "add " + text, now)
      == (tasks + [Task(NextId(tasks), text, Pending, now, now)], Done(Added(NextId(tasks))))
  {
    assert "add " + text == "add" + " " + text;
    assert !IsWhiteSpace("add"[0]);
    LineOf("add", text);
    ToLowerOfLower("add");
  }

  /** Splitting is on single spaces: a second space before the id leaves an empty
      first token, which is never an id, so the command fails with "invalid id"
      and changes nothing. */
  lemma DoubledSpaceBeforeIdIsInvalid(tasks: seq<Task>, word: string, rest: string, now: nat)
    requires ' ' !in word && ActionFor(ToLower(word)).Some?
    requires !Blank(rest)
    ensures Step(tasks, word + "  " + rest, now) == (tasks, Done(Failed(InvalidId)))
  {
    assert word + "  " + rest == word + " " + (" " + rest);
    ChangeLineRoutes(tasks, word, " " + rest, now);
    LeadingSpaceIsInvalidId(tasks, ActionFor(ToLower(word)).value, rest, now);
  }
}

=== FILE: integers.dfy ===
/**
  C# `int`: its 32-bit range, the unchecked `+ 1` used to make a new task id, the
  `int.TryParse` that reads an id typed by the user, and the decimal rendering the
  program prints ids with.
 */
module Integers {
  import opened Options
  import opened Strings

  const MinInt32: int := -0x8000_0000
  const MaxInt32: int := 0x7fff_ffff
  const Modulus: int := 0x1_0000_0000

  type Int32 = x: int | -0x8000_0000 <= x <= 0x7fff_ffff

  /** `x + 1` in C#'s default unchecked arithmetic: the exact successor taken
      modulo 2^32 and brought back into the 32-bit range. */
  function WrapIncrement(x: Int32): (r: Int32)
    ensures (r - (x + 1)) % Modulus == 0
    ensures x < MaxInt32 ==> r > x
    ensures x == MaxInt32 ==> r < x
  {
    var s := x + 1;
    if s > MaxInt32 then s - Modulus else s
  }

  // ---------------------------------------------------------------------------
  // Decimal digits

  predicate IsDigit(c: char) {
    '0' <= c <= '9'
  }

  predicate AllDigits(s: string) {
    forall i :: 0 <= i < |s| ==> IsDigit(s[i])
  }

  function DigitValue(c: char): (d: nat)
    requires IsDigit(c)
    ensures d < 10
  {
    c as int - '0' as int
  }

  function DigitChar(d: nat): (c: char)
    requires d < 10
    ensures IsDigit(c) && DigitValue(c) == d
  {
    ('0' as int + d) as char
  }

  /** The value of a string of decimal digits, most significant first. */
  function DigitsValue(s: string): nat
    requires AllDigits(s)
    decreases |s|
  {
    if |s| == 0 then 0 else DigitsValue(s[..|s| - 1]) * 10 + DigitValue(s[|s| - 1])
  }

  /** The shortest decimal form of `n`. */
  function NatToDigits(n: nat): string
    decreases n
  {
    if n < 10 then [DigitChar(n)] else NatToDigits(n / 10) + [DigitChar(n % 10)]
  }

  /** How an `int` is printed in the program's messages (`$"... {id}"`). */
  function FormatInt(n: int): (r: string)
    ensures |r| > 0 && (r[0] == '-' <==> n < 0)
    ensures n < 0 ==> |r| > 1 && AllDigits(r[1..]) && DigitsValue(r[1..]) == -n
    ensures n >= 0 ==> AllDigits(r) && DigitsValue(r) == n
    ensures var digits := if n < 0 then r[1..] else r; digits[0] == '0' ==> digits == "0"
  {
    if n < 0 then
      NatToDigitsRoundTrip(-n);
      assert ("-" + NatToDigits(-n))[1..] == NatToDigits(-n);
      "-" + NatToDigits(-n)
    else
      NatToDigitsRoundTrip(n);
      NatToDigits(n)
  }

  lemma {:induction false} NatToDigitsRoundTrip(n: nat)
    ensures |NatToDigits(n)| > 0
    ensures AllDigits(NatToDigits(n))
    ensures DigitsValue(NatToDigits(n)) == n
    ensures n > 0 ==> NatToDigits(n)[0] != '0'
    decreases n
  {
    if n >= 10 {
      NatToDigitsRoundTrip(n / 10);
      var s := NatToDigits(n / 10) + [DigitChar(n % 10)];
      assert s[..|s| - 1] == NatToDigits(n / 10);
    }
  }

  // ---------------------------------------------------------------------------
  // int.TryParse

  /** `int.TryParse(s, out id)`: an optional leading '+' or '-', then one or more
      ASCII digits, whose value must lie in the 32-bit range. */
  function ParseInt32(s: string): (r: Option<Int32>)
    ensures r.Some? ==> |s| > 0 && (IsDigit(s[0]) || s[0] == '-' || s[0] == '+')
    ensures r.Some? ==> AllDigits(s[1..]) && !Blank(s)
    ensures r.Some? && r.value < 0 ==> s[0] == '-'
    ensures r.Some? ==> IsDigit(s[|s| - 1])
    ensures |s| > 0 && AllDigits(s) ==>
      if DigitsValue(s) <= MaxInt32 then r.Some? && r.value == DigitsValue(s) else r.None?
    ensures |s| > 1 && s[0] == '+' && AllDigits(s[1..]) ==>
      if DigitsValue(s[1..]) <= MaxInt32 then r.Some? && r.value == DigitsValue(s[1..]) else r.None?
    ensures |s| > 1 && s[0] == '-' && AllDigits(s[1..]) ==>
      if DigitsValue(s[1..]) <= 0 - MinInt32 then r.Some? && r.value == 0 - DigitsValue(s[1..]) else r.None?
  {
    if |s| == 0 then None
    else
      var negative := s[0] == '-';
      var digits := if s[0] == '-' || s[0] == '+' then s[1..] else s;
      if |digits| == 0 || !AllDigits(digits) then None
      else
        var magnitude: int := DigitsValue(digits);
        var v := if negative then 0 - magnitude else magnitude;
        if MinInt32 <= v <= MaxInt32 then
          assert !IsWhiteSpace(s[0]);
          Some(v)
        else None
  }

  /** Every id the program prints can be typed back: parsing the printed form of an
      `int` gives that `int`. */
  lemma ParseFormatRoundTrip(n: Int32)
    ensures ParseInt32(FormatInt(n)) == Some(n)
  {
    if n < 0 {
      var m: nat := 0 - n as int;
      NatToDigitsRoundTrip(m);
      assert FormatInt(n)[1..] == NatToDigits(m);
    } else {
      NatToDigitsRoundTrip(n);
      assert IsDigit(FormatInt(n)[0]);
    }
  }

  /** Ids may be typed with leading zeros or a '+', as `int.TryParse` allows. */
  lemma PaddedAndSignedIds()
    ensures ParseInt32("007") == Some(7)
    ensures ParseInt32("+5") == Some(5)
  {
    assert "007"[..2] == "00" && "00"[..1] == "0" && "0"[..0] == "";
    assert DigitsValue("0") == 0 && DigitsValue("00") == 0;
    assert AllDigits("007") && DigitsValue("007") == 7;
    assert "5"[..0] == "";
    assert "+5"[1..] == "5" && AllDigits("5") && DigitsValue("5") == 5;
  }
}

=== FILE: listing.dfy ===
/**
  The `list` command (`ListTasks`): choose the tasks to show from the optional
  filter argument, then render each as a table row whose description is cut to
  fit its 27-character column. Listing never changes the task list.
 */
module Listing {
  import opened Options
  import opened Strings
  import opened Integers
  import opened Sequences
  import opened TaskStore

  /** What a filter argument selects. */
  datatype Filter = All | ByStatus(status: Status) | ByKeyword(keyword: string)

  /** No filter or a blank one shows everything. Otherwise the lower-cased filter
      names a status bucket ("todo", "in-progress", "done") or, failing that, is a
      keyword searched for in the lower-cased descriptions. */
  function ParseFilter(arg: Option<string>): (f: Filter)
    ensures MissingOrBlank(arg) <==> f == All
    ensures !MissingOrBlank(arg) ==>
      var key := ToLower(arg.value);
      && (f == ByStatus(Pending) <==> key == "todo")
      && (f == ByStatus(InProgress) <==> key == "in-progress")
      && (f == ByStatus(Completed) <==> key == "done")
      && (f.ByKeyword? <==> key != "todo" && key != "in-progress" && key != "done")
      && (f.ByKeyword? ==> f.keyword == key && !Blank(f.keyword))
  {
    if MissingOrBlank(arg) then All
    else
      var key := ToLower(arg.value);
      if key == "todo" then ByStatus(Pending)
      else if key == "in-progress" then ByStatus(InProgress)
      else if key == "done" then ByStatus(Completed)
      else
        assert !Blank(key) by {
          var i :| 0 <= i < |arg.value| && !IsWhiteSpace(arg.value[i]);
          assert !IsUpper(arg.value[i]) ==> key[i] == arg.value[i];
        }
        ByKeyword(key)
  }

  /** The `Where` predicate of each filter. */
  predicate Matches(t: Task, f: Filter) {
    match f
    case All => true
    case ByStatus(s) => t.status.Text() == s.Text()
    case ByKeyword(k) => Contains(ToLower(t.description), k)
  }

  /** `tasks.Where(...)`: the matching tasks, in list order, each as many times as
      it occurs. */
  function Select(tasks: seq<Task>, f: Filter): (r: seq<Task>)
    ensures IsSubsequence(r, tasks)
    ensures forall t :: t in r ==> Matches(t, f)
    ensures forall t :: Matches(t, f) ==> multiset(r)[t] == multiset(tasks)[t]
    decreases |tasks|
  {
    if |tasks| == 0 then []
    else
      var rest := Select(tasks[1..], f);
      assert tasks == [tasks[0]] + tasks[1..];
      if Matches(tasks[0], f) then
        assert ([tasks[0]] + rest)[1..] == rest;
        [tasks[0]] + rest
      else
        rest
  }

  /** Which tasks a `list` argument shows: all of them for a missing or blank
      filter, exactly those with the named status for "todo", "in-progress" and
      "done" in any letter case, and otherwise exactly those whose lower-cased
      description contains the lower-cased filter. */
  lemma FilterSemantics(tasks: seq<Task>, arg: Option<string>)
    ensures forall t :: t in Select(tasks, ParseFilter(arg)) <==>
      && t in tasks
      && (|| MissingOrBlank(arg)
          || (ToLower(arg.value) == "todo" && t.status == Pending)
          || (ToLower(arg.value) == "in-progress" && t.status == InProgress)
          || (ToLower(arg.value) == "done" && t.status == Completed)
          || (&& ToLower(arg.value) !in {"todo", "in-progress", "done"}
              && exists i: nat :: OccursAt(ToLower(t.description), ToLower(arg.value), i)))
  {
    var f := ParseFilter(arg);
    forall t | t in tasks && Matches(t, f)
      ensures t in Select(tasks, f)
    {
      assert multiset(tasks)[t] > 0;
    }
    forall t
      ensures Matches(t, f) <==>
        (|| MissingOrBlank(arg)
         || (ToLower(arg.value) == "todo" && t.status == Pending)
         || (ToLower(arg.value) == "in-progress" && t.status == InProgress)
         || (ToLower(arg.value) == "done" && t.status == Completed)
         || (&& ToLower(arg.value) !in {"todo", "in-progress", "done"}
             && exists i: nat :: OccursAt(ToLower(t.description), ToLower(arg.value), i)))
    {
      StatusTextInjective();
    }
  }

  /** The status texts are distinct, so comparing texts compares statuses. */
  lemma StatusTextInjective()
    ensures forall s1: Status, s2: Status :: s1.Text() == s2.Text() ==> s1 == s2
  {
  }

  lemma {:induction false} SelectAllIsIdentity(tasks: seq<Task>)
    ensures Select(tasks, All) == tasks
    decreases |tasks|
  {
    if |tasks| > 0 {
      SelectAllIsIdentity(tasks[1..]);
    }
  }

  // ---------------------------------------------------------------------------
  // The table

  const DescriptionWidth := 27
  const KeptChars := 24

  /** The description column: a description longer than 27 UTF-16 units becomes
      its first 24 units followed by "...". */
  function Truncate(d: string): (r: string)
    ensures Utf16Length(r) <= DescriptionWidth
    ensures Utf16Length(d) <= DescriptionWidth ==> r == d
    ensures Utf16Length(d) > DescriptionWidth ==> |r| >= 3 && r[|r| - 3..] == "..."
    ensures Utf16Length(d) > DescriptionWidth && |r| >= 3 ==>
      var kept := r[..|r| - 3];
      && kept <= d && |kept| < |d|
      && KeptChars - 1 <= Utf16Length(kept) <= KeptChars
      && Utf16Length(kept) + Utf16Width(d[|kept|]) > KeptChars
  {
    if Utf16Length(d) > DescriptionWidth then
      var kept := PrefixWithin(d, KeptChars);
      Utf16LengthAppend(kept, "...");
      assert kept != d;
      assert kept == d[..|kept|];
      assert (kept + "...")[..|kept|] == kept;
      kept + "..."
    else d
  }

  /** For text in the Basic Multilingual Plane units are characters: a description
      of more than 27 characters shows its first 24 and "...". */
  lemma TruncateInBmp(d: string)
    requires InBmp(d)
    ensures |d| <= DescriptionWidth ==> Truncate(d) == d
    ensures |d| > DescriptionWidth ==> Truncate(d) == d[..KeptChars] + "..."
  {
    Utf16LengthBounds(d);
    if |d| > DescriptionWidth {
      var kept := PrefixWithin(d, KeptChars);
      assert kept == d[..|kept|];
      Utf16LengthBounds(kept);
      assert InBmp(kept) by {
        forall i | 0 <= i < |kept| ensures kept[i] as int < 0x1_0000 {
          assert kept[i] == d[i];
        }
      }
    }
  }

  /** Counting in units, not characters: fourteen emoji are 28 units, more than
      the column holds, so twelve of them (24 units) are kept. */
  lemma FourteenEmojiAreCut()
    ensures var d := seq(14, _ => '\U{1F600}');
      Truncate(d) == seq(12, _ => '\U{1F600}') + "..."
  {
    var d := seq(14, _ => '\U{1F600}');
    var k := seq(12, _ => '\U{1F600}');
    EmojiLength(d);
    EmojiLength(k);
    assert k <= d;
    var kept := PrefixWithin(d, KeptChars);
    EmojiLength(kept);
    assert |kept| == 12;
    assert kept == d[..12] == k;
  }

  lemma {:induction false} EmojiLength(s: string)
    requires forall i :: 0 <= i < |s| ==> s[i] == '\U{1F600}'
    ensures Utf16Length(s) == 2 * |s|
    decreases |s|
  {
    if |s| > 0 {
      EmojiLength(s[1..]);
    }
  }

  /** One line of the table, before padding and colouring. */
  datatype Row = Row(id: Int32, status: string, description: string, createdAt: nat, updatedAt: nat)

  /** The outcome of `list`: the "no tasks" message, or a table. */
  datatype View = NothingToShow | Table(rows: seq<Row>)

  function RenderRow(t: Task): (row: Row)
    ensures row.id == t.id && row.createdAt == t.createdAt && row.updatedAt == t.updatedAt
    ensures row.status in {"Pending", "In Progress", "Completed"}
    ensures forall s: Status :: row.status == s.Text() <==> t.status == s
    ensures row.description == Truncate(t.description)
    ensures Utf16Length(row.description) <= DescriptionWidth
  {
    StatusTextInjective();
    Row(t.id, t.status.Text(), Truncate(t.description), t.createdAt, t.updatedAt)
  }

  /** `ListTasks(tasks, filter)`: one row per selected task, in list order, or the
      "no tasks" message when nothing is selected. */
  function ListTasks(tasks: seq<Task>, arg: Option<string>): (v: View)
    ensures v == NothingToShow <==> |Select(tasks, ParseFilter(arg))| == 0
    ensures v.Table? ==>
      var shown := Select(tasks, ParseFilter(arg));
      |v.rows| == |shown| && forall i :: 0 <= i < |shown| ==> v.rows[i] == RenderRow(shown[i])
    ensures MissingOrBlank(arg) && |tasks| > 0 ==> v.Table? && |v.rows| == |tasks|
  {
    var shown := Select(tasks, ParseFilter(arg));
    SelectAllIsIdentity(tasks);
    if |shown| == 0 then NothingToShow
    else Table(seq(|shown|, i requires 0 <= i < |shown| => RenderRow(shown[i])))
  }
}

=== FILE: options.dfy ===
/**
  The one optional-value type of the model. It stands for the C# program's
  nullable strings (`argumento` is `null` when the input line has no space)
  and for searches that may find nothing.
 */
module Options {

  datatype Option<T> = None | Some(value: T)
}

=== FILE: scenarios.dfy ===
/**
  A whole session composed from `Cli.Step`, one input line at a time, each line
  with its own clock reading. The lines are parameters fixed by the requires
  clauses, written as command word, space and argument: stated this way the
  verifier works on the pieces instead of unfolding every string literal
  character by character through `Step`.
 */
module Scenarios {
  import opened Options
  import opened Strings
  import opened Integers
  import opened TaskStore
  import opened Listing
  import opened Cli

  /** Two adds, a mark-done, a list, a delete and an update, starting empty. */
  lemma Walkthrough(l1: string, l2: string, l3: string, l4: string, l5: string, l6: string)
    requires l1 == "add " + "Buy milk" && l2 == "add " + "Buy bread"
    requires l3 == "mark-done " + "1" && l4 == "list " + "done"
    requires l5 == "delete " + "2" && l6 == "update" + " " + ("1" + " " + "Buy oat milk")
    ensures
      var (s1, o1) := Step([], l1, 1);
      var (s2, o2) := Step(s1, l2, 2);
      var (s3, o3) := Step(s2, l3, 3);
      var (s4, o4) := Step(s3, l4, 4);
      var (s5, o5) := Step(s4, l5, 5);
      var (s6, o6) := Step(s5, l6, 6);
      && o1 == Done(Added(1))
      && o2 == Done(Added(2))
      && s2 == [Task(1, "Buy milk", Pending, 1, 1), Task(2, "Buy bread", Pending, 2, 2)]
      && o3 == Done(Marked(1, Completed))
      && s3 == [Task(1, "Buy milk", Completed, 1, 3), Task(2, "Buy bread", Pending, 2, 2)]
      && o4 == Listed(Table([Row(1, "Completed", "Buy milk", 1, 3)]))
      && s4 == s3
      && o5 == Done(Deleted(2))
      && o6 == Done(Updated(1))
      && s6 == [Task(1, "Buy oat milk", Completed, 1, 6)]
  {
    AddToEmpty([], l1);
    var s1 := [Task(1, "Buy milk", Pending, 1, 1)];
    AddSecond(s1, l2);
    var s2 := [Task(1, "Buy milk", Pending, 1, 1), Task(2, "Buy bread", Pending, 2, 2)];
    MarkDoneFirst(s2, l3);
    var s3 := [Task(1, "Buy milk", Completed, 1, 3), Task(2, "Buy bread", Pending, 2, 2)];
    ListDone(s3, l4);
    DeleteSecond(s3, l5);
    UpdateFirst([Task(1, "Buy milk", Completed, 1, 3)], l6, "1" + " " + "Buy oat milk");
  }

  lemma AddToEmpty(tasks: seq<Task>, line: string)
    requires tasks == [] && line == "add " + "Buy milk"
    ensures Step(tasks, line, 1) == ([Task(1, "Buy milk", Pending, 1, 1)], Done(Added(1)))
  {
    assert !IsWhiteSpace("Buy milk"[0]);
    AddLineKeepsText(tasks, "Buy milk", 1);
  }

  lemma AddSecond(tasks: seq<Task>, line: string)
    requires tasks == [Task(1, "Buy milk", Pending, 1, 1)] && line == "add " + "Buy bread"
    ensures Step(tasks, line, 2)
      == ([Task(1, "Buy milk", Pending, 1, 1), Task(2, "Buy bread", Pending, 2, 2)], Done(Added(2)))
  {
    assert !IsWhiteSpace("Buy bread"[0]);
    AddLineKeepsText(tasks, "Buy bread", 2);
    assert NextId(tasks) == 2;
    assert tasks + [Task(2, "Buy bread", Pending, 2, 2)]
      == [Task(1, "Buy milk", Pending, 1, 1), Task(2, "Buy bread", Pending, 2, 2)];
  }

  /** The id tokens of the session read as the ids 1 and 2. */
  lemma SmallIds()
    ensures !Blank("1") && IdToken("1") == "1" && ParseInt32("1") == Some(1)
    ensures !Blank("2") && IdToken("2") == "2" && ParseInt32("2") == Some(2)
  {
    assert FormatInt(1) == "1" && FormatInt(2) == "2";
    PrintedIdIsOneToken(1);
    PrintedIdIsOneToken(2);
  }

  /** A line `word arg` whose word names an action, routed to `ChangeTask`. */
  lemma Routed(tasks: seq<Task>, line: string, word: string, arg: string, action: Action, now: nat)
    requires line == word + " " + arg
    requires ' ' !in word && ToLower(word) == word && ActionFor(word) == Some(action)
    ensures Step(tasks, line, now)
      == (ChangeTask(tasks, action, Some(arg), now).tasks, Done(ChangeTask(tasks, action, Some(arg), now).reply))
  {
    ChangeLineRoutes(tasks, word, arg, now);
  }

  lemma MarkDoneFirst(tasks: seq<Task>, line: string)
    requires tasks == [Task(1, "Buy milk", Pending, 1, 1), Task(2, "Buy bread", Pending, 2, 2)]
    requires line == "mark-done " + "1"
    ensures Step(tasks, line, 3)
      == ([Task(1, "Buy milk", Completed, 1, 3), Task(2, "Buy bread", Pending, 2, 2)], Done(Marked(1, Completed)))
  {
    assert line == "mark-done" + " " + "1";
    ToLowerOfLower("mark-done");
    Routed(tasks, line, "mark-done", "1", SetStatus(Completed), 3);
    MarkDoneStore(tasks);
  }

  lemma MarkDoneStore(tasks: seq<Task>)
    requires tasks == [Task(1, "Buy milk", Pending, 1, 1), Task(2, "Buy bread", Pending, 2, 2)]
    ensures ChangeTask(tasks, SetStatus(Completed), Some("1"), 3)
      == Change([Task(1, "Buy milk", Completed, 1, 3), Task(2, "Buy bread", Pending, 2, 2)], Marked(1, Completed))
  {
    SmallIds();
    assert Locate(tasks, Some("1")) == Found(1, 0);
    var r := Restatus(tasks, 0, Completed, 3);
    assert r[0] == Task(1, "Buy milk", Completed, 1, 3) && r[1] == tasks[1];
    assert r == [Task(1, "Buy milk", Completed, 1, 3), Task(2, "Buy bread", Pending, 2, 2)];
  }

  lemma ListDone(tasks: seq<Task>, line: string)
    requires tasks == [Task(1, "Buy milk", Completed, 1, 3), Task(2, "Buy bread", Pending, 2, 2)]
    requires line == "list " + "done"
    ensures Step(tasks, line, 4) == (tasks, Listed(Table([Row(1, "Completed", "Buy milk", 1, 3)])))
  {
    assert line == "list" + " " + "done";
    ToLowerOfLower("list");
    ListLineRoutes(tasks, "list", "done", 4);
    ListDoneView(tasks);
  }

  lemma ListDoneView(tasks: seq<Task>)
    requires tasks == [Task(1, "Buy milk", Completed, 1, 3), Task(2, "Buy bread", Pending, 2, 2)]
    ensures ListTasks(tasks, Some("done")) == Table([Row(1, "Completed", "Buy milk", 1, 3)])
  {
    DoneFilter();
    SelectDone(tasks);
  }

  lemma SelectDone(tasks: seq<Task>)
    requires tasks == [Task(1, "Buy milk", Completed, 1, 3), Task(2, "Buy bread", Pending, 2, 2)]
    ensures Select(tasks, ByStatus(Completed)) == [tasks[0]]
  {
  }

  lemma DoneFilter()
    ensures ParseFilter(Some("done")) == ByStatus(Completed)
  {
    assert !IsWhiteSpace("done"[0]);
    ToLowerOfLower("done");
  }

  lemma DeleteSecond(tasks: seq<Task>, line: string)
    requires tasks == [Task(1, "Buy milk", Completed, 1, 3), Task(2, "Buy bread", Pending, 2, 2)]
    requires line == "delete " + "2"
    ensures Step(tasks, line, 5) == ([Task(1, "Buy milk", Completed, 1, 3)], Done(Deleted(2)))
  {
    assert line == "delete" + " " + "2";
    ToLowerOfLower("delete");
    Routed(tasks, line, "delete", "2", Delete, 5);
    DeleteStore(tasks);
  }

  lemma DeleteStore(tasks: seq<Task>)
    requires tasks == [Task(1, "Buy milk", Completed, 1, 3), Task(2, "Buy bread", Pending, 2, 2)]
    ensures ChangeTask(tasks, Delete, Some("2"), 5) == Change([Task(1, "Buy milk", Completed, 1, 3)], Deleted(2))
  {
    SmallIds();
    assert FindIndex(tasks[1..], 2) == Some(0);
    assert Locate(tasks, Some("2")) == Found(2, 1);
    assert RemoveAt(tasks, 1) == [tasks[0]];
  }

  lemma UpdateFirst(tasks: seq<Task>, line: string, arg: string)
    requires tasks == [Task(1, "Buy milk", Completed, 1, 3)]
    requires arg == "1" + " " + "Buy oat milk" && line == "update" + " " + arg
    ensures Step(tasks, line, 6) == ([Task(1, "Buy oat milk", Completed, 1, 6)], Done(Updated(1)))
  {
    ToLowerOfLower("update");
    Routed(tasks, line, "update", arg, Update, 6);
    UpdateStore(tasks, arg);
  }

  lemma UpdateStore(tasks: seq<Task>, arg: string)
    requires tasks == [Task(1, "Buy milk", Completed, 1, 3)]
    requires arg == "1" + " " + "Buy oat milk"
    ensures ChangeTask(tasks, Update, Some(arg), 6)
      == Change([Task(1, "Buy oat milk", Completed, 1, 6)], Updated(1))
  {
    UpdateLocate(tasks, arg);
    UpdateArgument(arg);
    assert !IsWhiteSpace("Buy oat milk"[0]);
    var r := Reword(tasks, 0, "Buy oat milk", 6);
    assert r[0] == Task(1, "Buy oat milk", Completed, 1, 6);
    assert r == [Task(1, "Buy oat milk", Completed, 1, 6)];
  }

  lemma UpdateLocate(tasks: seq<Task>, arg: string)
    requires tasks == [Task(1, "Buy milk", Completed, 1, 3)]
    requires arg == "1" + " " + "Buy oat milk"
    ensures Locate(tasks, Some(arg)) == Found(1, 0)
  {
    UpdateArgument(arg);
  }

  /** The update argument of the session: id 1, then the new description. */
  lemma UpdateArgument(arg: string)
    requires arg == "1" + " " + "Buy oat milk"
    ensures !Blank(arg)
    ensures IdToken(arg) == "1" && ParseInt32("1") == Some(1)
    ensures TextAfter(arg, ' ') == "Buy oat milk"
  {
    SmallIds();
    assert arg == "1" + [' '] + "Buy oat milk";
    SplitFirstOfJoined("1", ' ', "Buy oat milk");
    assert !IsWhiteSpace(arg[0]);
  }
}

=== FILE: sequences.dfy ===
/**
  Order-preserving selection from a sequence: what `Where` and `List.Remove`
  keep of the task list.
 */
module Sequences {

  /** `a` is obtained from `b` by dropping some elements, keeping the order of
      the rest. */
  ghost predicate IsSubsequence<T>(a: seq<T>, b: seq<T>)
    decreases |b|
  {
    || |a| == 0
    || (&& |b| > 0
        && ((a[0] == b[0] && IsSubsequence(a[1..], b[1..])) || IsSubsequence(a, b[1..])))
  }

  lemma {:induction false} SubsequenceReflexive<T>(s: seq<T>)
    ensures IsSubsequence(s, s)
    decreases |s|
  {
    if |s| > 0 {
      SubsequenceReflexive(s[1..]);
    }
  }

  /** Removing the element at position `i` leaves an order-preserving selection
      holding every other element. */
  lemma {:induction false} RemoveAtIsSubsequence<T>(s: seq<T>, i: nat)
    requires i < |s|
    ensures IsSubsequence(s[..i] + s[i + 1..], s)
    decreases i
  {
    if i == 0 {
      assert s[..0] + s[1..] == s[1..];
      SubsequenceReflexive(s[1..]);
    } else {
      var r := s[..i] + s[i + 1..];
      RemoveAtIsSubsequence(s[1..], i - 1);
      assert r[1..] == s[1..][..i - 1] + s[1..][i..];
    }
  }
}

=== FILE: strings.dfy ===
/**
  The .NET string operations the task tracker relies on: `string.IsNullOrWhiteSpace`,
  `ToLower`, `Split(' ')`, `Split(' ', 2)`, `string.Join(" ", ...)` and the ordinal
  `Contains`. Every split in the program is on the single character ' ', so the
  separator here is one character and runs of it produce empty pieces.
 */
module Strings {
  import opened Options

  /** `char.IsWhiteSpace`: U+0009..U+000D, U+0085, U+00A0 and the Unicode space,
      line and paragraph separators (categories Zs, Zl, Zp). */
  predicate IsWhiteSpace(c: char) {
    || c == ' '
    || ('\t' <= c <= '\r')
    || c == '\U{0085}'
    || c == '\U{00A0}'
    || c == '\U{1680}'
    || ('\U{2000}' <= c <= '\U{200A}')
    || c == '\U{2028}'
    || c == '\U{2029}'
    || c == '\U{202F}'
    || c == '\U{205F}'
    || c == '\U{3000}'
  }

  /** Empty or made of white space only. */
  predicate Blank(s: string) {
    forall i :: 0 <= i < |s| ==> IsWhiteSpace(s[i])
  }

  /** `string.IsNullOrWhiteSpace`, with `None` standing for `null`. */
  predicate MissingOrBlank(s: Option<string>) {
    s.None? || Blank(s.value)
  }

  // ---------------------------------------------------------------------------
  // Lower-casing

  predicate IsUpper(c: char) {
    'A' <= c <= 'Z'
  }

  /** ASCII lower-casing of one character; every other character is kept. */
  function LowerChar(c: char): (r: char)
    ensures !IsUpper(r)
    ensures IsUpper(c) ==> r as int == c as int + 32
    ensures !IsUpper(c) ==> r == c
  {
    if IsUpper(c) then (c as int + 32) as char else c
  }

  /** `string.ToLower`, restricted to ASCII letters. */
  function ToLower(s: string): (r: string)
    ensures |r| == |s|
    ensures forall i :: 0 <= i < |s| ==> !IsUpper(r[i])
    ensures forall i :: 0 <= i < |s| && !IsUpper(s[i]) ==> r[i] == s[i]
    ensures forall i :: 0 <= i < |s| && IsUpper(s[i]) ==> r[i] as int == s[i] as int + 32
  {
    seq(|s|, i requires 0 <= i < |s| => LowerChar(s[i]))
  }

  /** A string with no upper-case letter is its own lower-case form. */
  lemma ToLowerOfLower(s: string)
    requires forall i :: 0 <= i < |s| ==> !IsUpper(s[i])
    ensures ToLower(s) == s
  {
  }

  // ---------------------------------------------------------------------------
  // Searching and splitting

  /** Position of the first occurrence of `c` in `s`, if any. */
  function IndexOf(s: string, c: char): (r: Option<nat>)
    ensures r.Some? ==> r.value < |s| && s[r.value] == c && c !in s[..r.value]
    ensures r.None? <==> c !in s
  {
    if |s| == 0 then None
    else if s[0] == c then Some(0)
    else
      match IndexOf(s[1..], c)
      case None => None
      case Some(k) =>
        assert s[1..][..k] == s[1..k + 1];
        Some(k + 1)
  }

  /** `s.Split(sep, 2)`: the text before the first `sep`, and the text after it
      when `sep` occurs at all. */
  function SplitFirst(s: string, sep: char): (r: (string, Option<string>))
    ensures sep !in r.0
    ensures r.1.None? <==> sep !in s
    ensures r.1.None? ==> r.0 == s
    ensures r.1.Some? ==> r.0 + [sep] + r.1.value == s
  {
    match IndexOf(s, sep)
    case None => (s, None)
    case Some(k) =>
      assert s == s[..k] + [sep] + s[k + 1..];
      (s[..k], Some(s[k + 1..]))
  }

  /** `s.Split(sep)`: every piece between separators, empty pieces included. */
  function SplitAll(s: string, sep: char): (r: seq<string>)
    ensures |r| >= 1
    ensures forall i :: 0 <= i < |r| ==> sep !in r[i]
    decreases |s|
  {
    match IndexOf(s, sep)
    case None => [s]
    case Some(k) => [s[..k]] + SplitAll(s[k + 1..], sep)
  }

  /** `string.Join(sep, parts)`. */
  function Join(sep: char, parts: seq<string>): string
    decreases |parts|
  {
    if |parts| == 0 then ""
    else if |parts| == 1 then parts[0]
    else parts[0] + [sep] + Join(sep, parts[1..])
  }

  /** Splitting on `sep` and joining back with `sep` gives the original text. */
  lemma {:induction false} JoinSplitAll(s: string, sep: char)
    ensures Join(sep, SplitAll(s, sep)) == s
    decreases |s|
  {
    match IndexOf(s, sep)
    case None =>
    case Some(k) =>
      var rest := SplitAll(s[k + 1..], sep);
      JoinSplitAll(s[k + 1..], sep);
      assert SplitAll(s, sep) == [s[..k]] + rest;
      assert ([s[..k]] + rest)[1..] == rest;
      assert s == s[..k] + [sep] + s[k + 1..];
  }

  /** The first piece of `Split(sep)` is the piece before the first `sep`, and
      joining the remaining pieces gives exactly the text after that `sep`
      (or nothing when there is none). */
  lemma SplitAllAgreesWithSplitFirst(s: string, sep: char)
    ensures SplitAll(s, sep)[0] == SplitFirst(s, sep).0
    ensures Join(sep, SplitAll(s, sep)[1..]) == TextAfter(s, sep)
  {
  }

  /** The text after the first `sep`, or the empty string when there is none. */
  function TextAfter(s: string, sep: char): (r: string)
    ensures sep in s ==> exists k :: 0 <= k < |s| && s[k] == sep && sep !in s[..k] && r == s[k + 1..]
    ensures sep !in s ==> r == ""
  {
    var (_, rest) := SplitFirst(s, sep);
    if rest.Some? then
      assert s[|SplitFirst(s, sep).0|] == sep;
      assert s[..|SplitFirst(s, sep).0|] == SplitFirst(s, sep).0;
      rest.value
    else ""
  }

  /** A word with no `sep`, then `sep`, then anything splits back into that word
      and that rest. */
  lemma SplitFirstOfJoined(word: string, sep: char, rest: string)
    requires sep !in word
    ensures SplitFirst(word + [sep] + rest, sep) == (word, Some(rest))
  {
    var s := word + [sep] + rest;
    assert s[|word|] == sep;
    var k := IndexOf(s, sep).value;
    assert k == |word|;
    assert s[..k] == word;
    assert s[k + 1..] == rest;
  }

  // ---------------------------------------------------------------------------
  // Lengths in UTF-16 code units

  /** How many UTF-16 code units .NET stores for `c`: a character outside the
      Basic Multilingual Plane takes a surrogate pair. */
  function Utf16Width(c: char): (w: nat)
    ensures w == 1 || w == 2
  {
    if c as int >= 0x1_0000 then 2 else 1
  }

  /** `s.Length` in .NET: the number of UTF-16 code units. */
  function Utf16Length(s: string): nat
    decreases |s|
  {
    if |s| == 0 then 0 else Utf16Width(s[0]) + Utf16Length(s[1..])
  }

  /** No character of `s` lies outside the Basic Multilingual Plane. */
  predicate InBmp(s: string) {
    forall i :: 0 <= i < |s| ==> s[i] as int < 0x1_0000
  }

  lemma {:induction false} Utf16LengthAppend(a: string, b: string)
    ensures Utf16Length(a + b) == Utf16Length(a) + Utf16Length(b)
    decreases |a|
  {
    if |a| == 0 {
      assert a + b == b;
    } else {
      assert (a + b)[1..] == a[1..] + b;
      Utf16LengthAppend(a[1..], b);
    }
  }

  /** Every character takes one or two units; in the Basic Multilingual Plane,
      exactly one, so there `Length` counts characters. */
  lemma {:induction false} Utf16LengthBounds(s: string)
    ensures |s| <= Utf16Length(s) <= 2 * |s|
    ensures InBmp(s) ==> Utf16Length(s) == |s|
    decreases |s|
  {
    if |s| > 0 {
      Utf16LengthBounds(s[1..]);
      assert InBmp(s) ==> InBmp(s[1..]) by {
        if InBmp(s) {
          forall i | 0 <= i < |s[1..]| ensures s[1..][i] as int < 0x1_0000 {
            assert s[1..][i] == s[i + 1];
          }
        }
      }
    }
  }

  /** The longest prefix of `s` that fits in `n` UTF-16 units: `s.Substring(0, n)`
      when no surrogate pair straddles unit `n`. */
  function PrefixWithin(s: string, n: nat): (p: string)
    ensures p <= s
    ensures Utf16Length(p) <= n
    ensures |p| < |s| ==> Utf16Length(p) + Utf16Width(s[|p|]) > n
    decreases |s|
  {
    if |s| == 0 || Utf16Width(s[0]) > n then ""
    else
      var rest := PrefixWithin(s[1..], n - Utf16Width(s[0]));
      assert ([s[0]] + rest)[1..] == rest;
      [s[0]] + rest
  }

  // ---------------------------------------------------------------------------
  // Substring search

  /** `needle` occurs in `hay` starting at position `i`. */
  predicate OccursAt(hay: string, needle: string, i: nat) {
    i + |needle| <= |hay| && hay[i..i + |needle|] == needle
  }

  /** The ordinal `string.Contains`: scans `hay` left to right. */
  function Contains(hay: string, needle: string): (b: bool)
    ensures b <==> exists i: nat :: OccursAt(hay, needle, i)
    decreases |hay|
  {
    if |needle| > |hay| then
      false
    else if hay[..|needle|] == needle then
      assert OccursAt(hay, needle, 0);
      true
    else
      OccursLater(hay, needle);
      Contains(hay[1..], needle)
  }

  /** When `needle` is not at the front of `hay`, it occurs in `hay` exactly when it
      occurs in `hay` without its first character. */
  lemma OccursLater(hay: string, needle: string)
    requires |hay| > 0 && !OccursAt(hay, needle, 0)
    ensures (exists i: nat :: OccursAt(hay, needle, i)) <==> (exists i: nat :: OccursAt(hay[1..], needle, i))
  {
    forall i: nat | OccursAt(hay[1..], needle, i)
      ensures OccursAt(hay, needle, i + 1)
    {
      assert hay[1..][i..i + |needle|] == hay[i + 1..i + 1 + |needle|];
    }
    forall i: nat | OccursAt(hay, needle, i)
      ensures OccursAt(hay[1..], needle, i - 1)
    {
      assert i != 0;
      assert hay[1..][i - 1..i - 1 + |needle|] == hay[i..i + |needle|];
    }
  }
}

=== FILE: taskstore.dfy ===
/**
  The in-memory task list of the tracker (`List<Task>` in `Program.Main`) and the
  commands that change it: the `add` branch of `Main` and `ChangeTask`, which
  carries out `delete`, `update`, `mark-done` and `mark-in-progress`.

  Every command is a pure function from the current list, the command's argument
  (`None` when the input line had no argument) and the clock reading `now` to the
  new list and the reply the program prints. A failed command returns the list
  it was given.
 */
module TaskStore {
  import opened Options
  import opened Strings
  import opened Integers
  import opened Sequences

  /** The three values the program ever stores in `Task.Status`. */
  datatype Status = Pending | InProgress | Completed {

    /** The stored text; note the space in "In Progress". */
    function Text(): string {
      match this
      case Pending => "Pending"
      case InProgress => "In Progress"
      case Completed => "Completed"
    }
  }

  /** One task. The timestamps are clock readings. */
  datatype Task = Task(id: Int32, description: string, status: Status, createdAt: nat, updatedAt: nat)

  /** The error messages of the `add` branch and of `ChangeTask`. */
  datatype Error =
    | MissingDescription     // add: no text after the command
    | MissingId              // no argument after the command
    | InvalidId              // the first ' '-separated token is not an int
    | NotFound               // no task has that id
    | MissingNewDescription  // update: nothing after the id token

  /** What a command reports. */
  datatype Reply =
    | Added(id: Int32)
    | Deleted(id: Int32)
    | Updated(id: Int32)
    | Marked(id: Int32, status: Status)
    | Failed(error: Error)

  /** The list after a command, and the command's reply. */
  datatype Change = Change(tasks: seq<Task>, reply: Reply)

  /** The `action` argument of `ChangeTask`. */
  datatype Action = Delete | Update | SetStatus(status: Status)

  // ---------------------------------------------------------------------------
  // Properties of a task list

  predicate HasId(tasks: seq<Task>, id: int) {
    exists i :: 0 <= i < |tasks| && tasks[i].id == id
  }

  /** No two tasks share an id. */
  predicate UniqueIds(tasks: seq<Task>) {
    forall i, j :: 0 <= i < j < |tasks| ==> tasks[i].id != tasks[j].id
  }

  /** Every task has a description that is not blank. */
  predicate Described(tasks: seq<Task>) {
    forall i :: 0 <= i < |tasks| ==> !Blank(tasks[i].description)
  }

  /** The invariant the commands keep. */
  predicate WellFormed(tasks: seq<Task>) {
    UniqueIds(tasks) && Described(tasks)
  }

  /** No task has the largest `int` as its id, so `max + 1` does not wrap. */
  predicate BelowIdCeiling(tasks: seq<Task>) {
    forall i :: 0 <= i < |tasks| ==> tasks[i].id < MaxInt32
  }

  /** `after` differs from `before` at most at position `i`. */
  predicate OnlyAt(before: seq<Task>, after: seq<Task>, i: nat) {
    |after| == |before| && forall j :: 0 <= j < |before| && j != i ==> after[j] == before[j]
  }

  // ---------------------------------------------------------------------------
  // add

  /** `tasks.Max(t => t.Id)`. */
  function MaxId(tasks: seq<Task>): (m: Int32)
    requires |tasks| > 0
    ensures forall i :: 0 <= i < |tasks| ==> tasks[i].id <= m
    ensures HasId(tasks, m)
    decreases |tasks|
  {
    if |tasks| == 1 then tasks[0].id
    else
      var rest := MaxId(tasks[1..]);
      if tasks[0].id > rest then tasks[0].id else rest
  }

  /** `tasks.Count == 0 ? 1 : tasks.Max(t => t.Id) + 1`, with C#'s unchecked `+`. */
  function NextId(tasks: seq<Task>): (n: Int32)
    ensures |tasks| == 0 ==> n == 1
    ensures BelowIdCeiling(tasks) ==> forall i :: 0 <= i < |tasks| ==> tasks[i].id < n
    ensures BelowIdCeiling(tasks) && |tasks| > 0 ==> HasId(tasks, n - 1)
    ensures !BelowIdCeiling(tasks) ==> n == MinInt32
  {
    if |tasks| == 0 then 1 else WrapIncrement(MaxId(tasks))
  }

  /** The `add` branch: the argument, exactly as typed, becomes the description of
      a new Pending task appended at the end. */
  function Add(tasks: seq<Task>, arg: Option<string>, now: nat): (r: Change)
    ensures MissingOrBlank(arg) ==> r == Change(tasks, Failed(MissingDescription))
    ensures !MissingOrBlank(arg) ==>
      && |r.tasks| == |tasks| + 1
      && r.tasks[..|tasks|] == tasks
      && r.reply == Added(r.tasks[|tasks|].id)
      && r.tasks[|tasks|].description == arg.value
      && r.tasks[|tasks|].status == Pending
      && r.tasks[|tasks|].createdAt == now
      && r.tasks[|tasks|].updatedAt == now
    ensures !MissingOrBlank(arg) && |tasks| == 0 ==> r.reply == Added(1)
    ensures !MissingOrBlank(arg) && BelowIdCeiling(tasks) ==>
      && (forall i :: 0 <= i < |tasks| ==> tasks[i].id < r.reply.id)
      && (|tasks| > 0 ==> HasId(tasks, r.reply.id - 1))
    ensures WellFormed(tasks) && BelowIdCeiling(tasks) ==> WellFormed(r.tasks)
  {
    if MissingOrBlank(arg) then
      Change(tasks, Failed(MissingDescription))
    else
      var id := NextId(tasks);
      var task := Task(id, arg.value, Pending, now, now);
      assert (tasks + [task])[..|tasks|] == tasks;
      Change(tasks + [task], Added(id))
  }

  // ---------------------------------------------------------------------------
  // ChangeTask

  /** `tasks.FirstOrDefault(t => t.Id == id)`, as a position. */
  function FindIndex(tasks: seq<Task>, id: int): (r: Option<nat>)
    ensures r.Some? ==> r.value < |tasks| && tasks[r.value].id == id
    ensures r.Some? ==> forall j :: 0 <= j < r.value ==> tasks[j].id != id
    ensures r.None? <==> !HasId(tasks, id)
    decreases |tasks|
  {
    if |tasks| == 0 then None
    else if tasks[0].id == id then Some(0)
    else
      match FindIndex(tasks[1..], id)
      case None => None
      case Some(k) => Some(k + 1)
  }

  /** `argumento.Split(' ')[0]`: the text before the first space. */
  function IdToken(arg: string): (token: string)
    ensures ' ' !in token
    ensures token <= arg
    ensures |token| < |arg| ==> arg[|token|] == ' '
  {
    SplitFirst(arg, ' ').0
  }

  /** Where `ChangeTask` acts, or why it stops. */
  datatype Lookup = Found(id: Int32, index: nat) | Missing(error: Error)

  /** The three early exits of `ChangeTask`, in their order: no argument, a first
      token that is not an int, no task with that id. */
  function Locate(tasks: seq<Task>, arg: Option<string>): (r: Lookup)
    ensures MissingOrBlank(arg) <==> r == Missing(MissingId)
    ensures !MissingOrBlank(arg) && ParseInt32(IdToken(arg.value)).None? ==> r == Missing(InvalidId)
    ensures !MissingOrBlank(arg) && ParseInt32(IdToken(arg.value)).Some? ==>
      var id := ParseInt32(IdToken(arg.value)).value;
      if HasId(tasks, id) then r.Found? && r.id == id else r == Missing(NotFound)
    ensures r.Found? ==>
      && r.index < |tasks|
      && tasks[r.index].id == r.id
      && forall j :: 0 <= j < r.index ==> tasks[j].id != r.id
  {
    if MissingOrBlank(arg) then Missing(MissingId)
    else
      SplitAllAgreesWithSplitFirst(arg.value, ' ');
      match ParseInt32(SplitAll(arg.value, ' ')[0])
      case None => Missing(InvalidId)
      case Some(id) =>
        match FindIndex(tasks, id)
        case None => Missing(NotFound)
        case Some(i) => Found(id, i)
  }

  /** `tasks.Remove(tarea)`: drops the task at position `i`. */
  function RemoveAt(tasks: seq<Task>, i: nat): (r: seq<Task>)
    requires i < |tasks|
    ensures |r| == |tasks| - 1
    ensures IsSubsequence(r, tasks)
    ensures multiset(r) + multiset{tasks[i]} == multiset(tasks)
    ensures forall k :: 0 <= k < i ==> r[k] == tasks[k]
    ensures forall k :: i <= k < |r| ==> r[k] == tasks[k + 1]
  {
    RemoveAtIsSubsequence(tasks, i);
    assert tasks == tasks[..i] + [tasks[i]] + tasks[i + 1..];
    tasks[..i] + tasks[i + 1..]
  }

  /** `ChangeTask`: locate the task named by the first token of the argument, then
      delete it, give it the rest of the argument as its description, or set its
      status. Only the located task changes, and a failure changes nothing. */
  function ChangeTask(tasks: seq<Task>, action: Action, arg: Option<string>, now: nat): (r: Change)
    ensures r.reply.Failed? ==> r.tasks == tasks
    ensures !r.reply.Added?
    ensures r.reply.Deleted? ==> action == Delete
    ensures r.reply.Updated? ==> action == Update
    ensures r.reply.Marked? ==> action == SetStatus(r.reply.status)
    ensures Locate(tasks, arg).Missing? ==> r.reply == Failed(Locate(tasks, arg).error)
    ensures Locate(tasks, arg).Found? && action == Delete ==>
      var i := Locate(tasks, arg).index;
      && r.reply == Deleted(tasks[i].id)
      && |r.tasks| == |tasks| - 1
      && IsSubsequence(r.tasks, tasks)
      && multiset(r.tasks) + multiset{tasks[i]} == multiset(tasks)
    ensures Locate(tasks, arg).Found? && action == Update ==>
      var i := Locate(tasks, arg).index;
      var desc := TextAfter(arg.value, ' ');
      if Blank(desc) then
        r.reply == Failed(MissingNewDescription)
      else
        && r.reply == Updated(tasks[i].id)
        && OnlyAt(tasks, r.tasks, i)
        && r.tasks[i].id == tasks[i].id
        && r.tasks[i].status == tasks[i].status
        && r.tasks[i].createdAt == tasks[i].createdAt
        && r.tasks[i].description == desc
        && r.tasks[i].updatedAt == now
    ensures Locate(tasks, arg).Found? && action.SetStatus? ==>
      var i := Locate(tasks, arg).index;
      && r.reply == Marked(tasks[i].id, action.status)
      && OnlyAt(tasks, r.tasks, i)
      && r.tasks[i].id == tasks[i].id
      && r.tasks[i].description == tasks[i].description
      && r.tasks[i].createdAt == tasks[i].createdAt
      && r.tasks[i].status == action.status
      && r.tasks[i].updatedAt == now
  {
    match Locate(tasks, arg)
    case Missing(e) => Change(tasks, Failed(e))
    case Found(id, i) =>
      match action
      case Delete => Change(RemoveAt(tasks, i), Deleted(id))
      case Update =>
        var desc := NewDescription(arg.value);
        if Blank(desc) then Change(tasks, Failed(MissingNewDescription))
        else Change(Reword(tasks, i, desc, now), Updated(id))
      case SetStatus(s) =>
        Change(Restatus(tasks, i, s, now), Marked(id, s))
  }

  /** `string.Join(" ", argumento.Split(' ').Skip(1))`: everything after the first
      space of the argument, spaces included. */
  function NewDescription(arg: string): (desc: string)
    ensures desc == TextAfter(arg, ' ')
  {
    SplitAllAgreesWithSplitFirst(arg, ' ');
    Join(' ', SplitAll(arg, ' ')[1..])
  }

  /** The `update` assignments: the task at `i` gets a new description and
      update time, and nothing else changes. */
  function Reword(tasks: seq<Task>, i: nat, desc: string, now: nat): (r: seq<Task>)
    requires i < |tasks|
    ensures OnlyAt(tasks, r, i)
    ensures r[i].id == tasks[i].id && r[i].status == tasks[i].status && r[i].createdAt == tasks[i].createdAt
    ensures r[i].description == desc && r[i].updatedAt == now
  {
    tasks[i := tasks[i].(description := desc, updatedAt := now)]
  }

  /** The `mark-done` / `mark-in-progress` assignments: the task at `i` gets a new
      status and update time, and nothing else changes. */
  function Restatus(tasks: seq<Task>, i: nat, s: Status, now: nat): (r: seq<Task>)
    requires i < |tasks|
    ensures OnlyAt(tasks, r, i)
    ensures r[i].id == tasks[i].id && r[i].description == tasks[i].description && r[i].createdAt == tasks[i].createdAt
    ensures r[i].status == s && r[i].updatedAt == now
  {
    tasks[i := tasks[i].(status := s, updatedAt := now)]
  }

  // ---------------------------------------------------------------------------
  // Properties relating several commands

  /** With unique ids, deleting the task at `i` removes exactly the tasks with its
      id and keeps the ids unique. */
  lemma RemoveAtDropsExactlyThatId(tasks: seq<Task>, i: nat)
    requires UniqueIds(tasks) && i < |tasks|
    ensures !HasId(RemoveAt(tasks, i), tasks[i].id)
    ensures forall t :: t in RemoveAt(tasks, i) <==> t in tasks && t.id != tasks[i].id
  {
  }

  lemma RemoveAtKeepsWellFormed(tasks: seq<Task>, i: nat)
    requires WellFormed(tasks) && i < |tasks|
    ensures WellFormed(RemoveAt(tasks, i))
  {
  }

  /** Each command keeps the ids unique and every description non-blank. */
  lemma ChangeTaskPreservesWellFormed(tasks: seq<Task>, action: Action, arg: Option<string>, now: nat)
    requires WellFormed(tasks)
    ensures WellFormed(ChangeTask(tasks, action, arg, now).tasks)
  {
    match Locate(tasks, arg)
    case Missing(_) =>
    case Found(id, i) =>
      match action
      case Delete => RemoveAtKeepsWellFormed(tasks, i);
      case Update =>
        var desc := NewDescription(arg.value);
        if !Blank(desc) {
          RewordKeepsWellFormed(tasks, i, desc, now);
        }
      case SetStatus(s) => RestatusKeepsWellFormed(tasks, i, s, now);
  }

  lemma RewordKeepsWellFormed(tasks: seq<Task>, i: nat, desc: string, now: nat)
    requires WellFormed(tasks) && i < |tasks| && !Blank(desc)
    ensures WellFormed(Reword(tasks, i, desc, now))
  {
    var r := Reword(tasks, i, desc, now);
    assert forall k :: 0 <= k < |r| ==> r[k].id == tasks[k].id;
  }

  lemma RestatusKeepsWellFormed(tasks: seq<Task>, i: nat, s: Status, now: nat)
    requires WellFormed(tasks) && i < |tasks|
    ensures WellFormed(Restatus(tasks, i, s, now))
  {
    var r := Restatus(tasks, i, s, now);
    assert forall k :: 0 <= k < |r| ==> r[k].id == tasks[k].id && r[k].description == tasks[k].description;
  }

  /** An argument that starts with a space has an empty first token, so every
      `ChangeTask` action fails with "invalid id" and changes nothing. */
  lemma LeadingSpaceIsInvalidId(tasks: seq<Task>, action: Action, rest: string, now: nat)
    requires !Blank(rest)
    ensures ChangeTask(tasks, action, Some(" " + rest), now) == Change(tasks, Failed(InvalidId))
  {
    var i :| 0 <= i < |rest| && !IsWhiteSpace(rest[i]);
    assert (" " + rest)[i + 1] == rest[i];
    assert " " + rest == "" + [' '] + rest;
    SplitFirstOfJoined("", ' ', rest);
  }

  /** A task that has just been added can be deleted again through its reported
      id, and that restores the list it was added to. */
  lemma DeleteUndoesAdd(tasks: seq<Task>, desc: string, now: nat, later: nat)
    requires BelowIdCeiling(tasks) && !Blank(desc)
    ensures var added := Add(tasks, Some(desc), now);
      && added.reply.Added?
      && ChangeTask(added.tasks, Delete, Some(FormatInt(added.reply.id)), later)
         == Change(tasks, Deleted(added.reply.id))
  {
    var added := Add(tasks, Some(desc), now);
    var id := added.reply.id;
    PrintedIdIsOneToken(id);
    assert added.tasks == tasks + [added.tasks[|tasks|]];
    var l := Locate(added.tasks, Some(FormatInt(id)));
    assert l.Found? && l.id == id && l.index == |tasks|;
    assert RemoveAt(added.tasks, |tasks|) == tasks;
  }

  /** The printed form of an id is a single token that reads back as that id. */
  lemma PrintedIdIsOneToken(id: Int32)
    ensures !Blank(FormatInt(id))
    ensures IdToken(FormatInt(id)) == FormatInt(id)
    ensures ParseInt32(FormatInt(id)) == Some(id)
  {
    var token := FormatInt(id);
    ParseFormatRoundTrip(id);
    NatToDigitsRoundTrip(if id < 0 then 0 - id as int else id);
    assert ' ' !in token by {
      if id < 0 { assert token == "-" + NatToDigits(0 - id as int); }
    }
  }

  /** Ids are `max + 1`, so the id of a task deleted right after it was added is
      handed out again by the next add: deleted ids are reused. */
  lemma AddAfterDeleteReusesId(tasks: seq<Task>, d1: string, d2: string, t1: nat, t2: nat, t3: nat)
    requires UniqueIds(tasks) && BelowIdCeiling(tasks) && !Blank(d1) && !Blank(d2)
    ensures var first := Add(tasks, Some(d1), t1);
      var gone := ChangeTask(first.tasks, Delete, Some(FormatInt(first.reply.id)), t2);
      Add(gone.tasks, Some(d2), t3).reply == first.reply
  {
    DeleteUndoesAdd(tasks, d1, t1, t2);
  }

  /** At the top of the `int` range `max + 1` wraps to the bottom: adding to a list
      that holds both extreme ids creates a second task with the smallest id. */
  lemma AddAtIdCeilingDuplicatesId()
    ensures var tasks := [Task(MinInt32, "a", Pending, 0, 0), Task(MaxInt32, "b", Pending, 0, 0)];
      var r := Add(tasks, Some("c"), 1);
      && WellFormed(tasks)
      && r.reply == Added(MinInt32)
      && !UniqueIds(r.tasks)
  {
    var tasks := [Task(MinInt32, "a", Pending, 0, 0), Task(MaxInt32, "b", Pending, 0, 0)];
    assert !IsWhiteSpace("a"[0]) && !IsWhiteSpace("b"[0]) && !IsWhiteSpace("c"[0]);
    assert !BelowIdCeiling(tasks) by { assert tasks[1].id == MaxInt32; }
    var r := Add(tasks, Some("c"), 1);
    assert r.tasks[0].id == r.tasks[2].id;
  }
}
